=== FILE: README.md ===
# Connection lifecycle and datagram flow of gm-quic, in Dafny

This project models the core of a QUIC connection's life and death in the
`gm-quic` Rust implementation. It also proves properties of that model.

- **`ConnState` and its four transitions** (`qconnection/src/connection.rs`). The state is always exactly one of `Raw` (active), `Closing`, `Draining` or `Closed`. The transitions are `should_enter_close`, `enter_draining`, `no_vaiable_path` and `die`.
- **The `ArcConnection` handle around the state.** This covers the connection-error signal and its dispatching task, `close`, the public `enter_draining`, the closing and draining timers with their `3 × pto` budgets, `die`, the accessor state check and `is_active`.
- **The datagram flow** (`qunreliable/src/flow.rs`). It is a shared reader half and writer half, and each half holds either its live state or the connection error that ended it.

Files:

- `qbase.dfy` (module `QBase`): options, results, the connection error, connection IDs.
- `flow.dfy` (module `Datagrams`): the datagram flow.
- `conn_state.dfy` (module `Connection`): `ConnState` and its transitions.
  - The subsystems that the active connection shares with the application are passed in as an `Env`, along with the global router.
  - The router is the log of connection IDs removed from it.
  - Durations are `nat`. Each path's `pto_time(Epoch::Data)` is an input.
- `arc_connection.dfy` (module `Lifecycle`): the handle.
  - Tasks become one pending `Task` value.
  - The environment drives the handle with `Event`s: an application close, an error raised on the signal, the dispatching task waking on it, a direct call of `enter_draining`, a close-confirmation frame (CCF) arriving `e` after the closing wait began, the pending timer expiring, or a forced `die`.
  - Raising the signal and dispatching it are separate events, so any interleaving of the two with the other events can be expressed.
  - `Run` folds a sequence of events. A panic in a task that holds no guard ends only that task, and the run goes on. A panic with the state mutex held poisons it, and a deadlock blocks for ever; either ends the run.

Behaviour kept exactly as written:

- `no_vaiable_path` ends in `Closed` from every state (`Connection.NoVaiablePath`, spelled as in the source). Only from `Raw` does it release IDs. From `Closing` or `Draining` it drops the held IDs unreleased. The handle-level corrected variant changes this (see Findings); the state-machine function does not.
- `is_active` is true exactly when the state is *not* `Raw`.
- `RawDatagramFlow::new` builds the reader from the remote size and the writer from the local size. Its doc comment describes the two roles the other way round. So the first remote-size update is checked against the local size (`Datagrams.FirstUpdateCheckedAgainstLocalSize`).

## Model

| member | source | states |
|---|---|---|
| `Datagrams.New` | qunreliable/src/flow.rs:32-39 | A new flow has both halves live with empty queues. The reader's ceiling is the remote size and the writer's is the local size, as wired. |
| `Datagrams.UpdateRemoteMaxSize` | qunreliable/src/flow.rs:64-67 | A size below the writer's current ceiling is refused with a protocol violation, and the flow is unchanged. An equal or larger size succeeds and raises only the writer's ceiling. An errored writer returns its error. The reader is never touched. |
| `Datagrams.TryReadDatagram` | qunreliable/src/flow.rs:71-81 | If the head datagram fits the limit, the buffer and the ceiling, it is taken off the writer. Nothing else is ever taken. An errored writer yields nothing. The reader is untouched. |
| `Datagrams.RecvDatagram` | qunreliable/src/flow.rs:85-91 | A payload within the reader's ceiling is appended to the reader's queue. An oversized payload is refused. An errored reader returns its error. The writer is untouched. |
| `Datagrams.Rw` | qunreliable/src/flow.rs:95-101 | Both handles returned name the flow's own shared halves. |
| `Datagrams.OnConnError` | qunreliable/src/flow.rs:117-121 | Both halves end up failed. A live half takes the new error. A half that has already failed keeps its first error. |
| `Datagrams.UpdatesKeepLargestSize` | qunreliable/src/flow.rs:30-31 | Over any sequence of updates, the writer's ceiling ends as the largest value it has seen. So it never shrinks, and the reader is unchanged. |
| `Datagrams.FirstUpdateCheckedAgainstLocalSize` | qunreliable/src/flow.rs:32-34 | On a new flow, a remote update succeeds iff it is at least the local size. |
| `Datagrams.ErrorSeenThroughEarlierHandles` | qunreliable/src/flow.rs:95-101 | After any later operations and a connection error, handles obtained earlier from `Rw` observe failed halves. |
| `Datagrams.OnConnErrorFirstErrorWins` | qunreliable/src/flow.rs:113-121 | A second connection error changes nothing. This makes the operation idempotent. |
| `Datagrams.ErroredFlowStaysErrored` | qunreliable/src/flow.rs:103-121 | An errored flow is left unchanged by any sequence of operations. |
| `Datagrams.ErroredFlowRejects` | qunreliable/src/flow.rs:62-91 | After the error, updates and receives fail with that error, and reads yield nothing. |
| `Datagrams.ReadAndRecvCommute` | qunreliable/src/flow.rs:71-91 | `try_read_datagram` and `recv_datagram` act on different halves, so their order does not matter. |
| `Connection.MaxPto` | qconnection/src/connection.rs:84-89 | The timeout is a PTO of one of the paths and no smaller than any path's PTO. A non-empty path set is required (`unwrap`). |
| `Connection.Broadcast` | qconnection/src/connection.rs:73-78 | Each subsystem hears of the error exactly once. The datagram flow ends errored, TLS is aborted, and the waiters are woken once. |
| `Connection.RemoveEach` | qconnection/src/connection.rs:159-161 | The router log grows by exactly the held IDs, in order. Each ID's count goes up by its multiplicity. |
| `Connection.ShouldEnterClose` | qconnection/src/connection.rs:62-105 | The transition is a no-op outside `Raw`. From `Raw` it leads to `Draining` iff neither space is salvageable, and to `Closing` otherwise, keeping the salvaged spaces. Either way the new state keeps the error and the active IDs, releases nothing, notifies once, and returns the receive handles and the maximum PTO. |
| `Connection.EnterDraining` | qconnection/src/connection.rs:107-132 | The transition is a no-op outside `Raw`. From `Raw` it always leads to `Draining` with the active IDs and the error, never `Closing`. It notifies once and returns the maximum PTO. |
| `Connection.NoVaiablePath` | qconnection/src/connection.rs:134-149 | The transition always ends in `Closed`. From `Raw` it removes every active ID and notifies with the no-viable-path error. From any other state it removes nothing and notifies no one. |
| `Connection.Die` | qconnection/src/connection.rs:151-162 | It is only callable from `Closing` or `Draining`. It ends in `Closed`, having removed each held ID from the router once. |
| `Connection.TransitionsAreMonotonic` | qconnection/src/connection.rs:61-163 | Over any sequence of transitions, the rank never falls and `Raw` never recurs once left. The router log only grows, and it grows only on reaching `Closed`. It grows either by nothing or by the starting state's IDs, once. Growing by nothing on the way to `Closed` needs a `no_vaiable_path`: a sequence without one that reaches `Closed` from an unclosed state appends every held ID. |
| `Connection.ClosedIsAbsorbing` | qconnection/src/connection.rs:134-162 | `Closed` is final: transitions from it change nothing and release nothing. |
| `Lifecycle.FromRaw` | qconnection/src/connection.rs:507-509 | A new handle is in `Raw`, with no removals, no timer, and the signal neither raised nor dispatched. |
| `Lifecycle.DrainFor` | qconnection/src/connection.rs:456-466 | If the caller still holds the guard, `draining` blocks for ever. Otherwise, unless the state is `Draining`, the assertion panics after its temporary guard is dropped, so only the calling task ends and the handle is unchanged. In `Draining` it starts the sleep for `remaining`. |
| `Lifecycle.ShouldEnterClosing` | qconnection/src/connection.rs:399-441 | It acts only in `Raw`. In both variants it notifies once, keeps the error and the IDs and releases nothing. It goes to `Draining` iff neither space is salvageable. Entering `Closing` redirects the receive handles and waits up to 3 × max PTO, in both variants. Entering `Draining` drops the handles. Corrected, it then sleeps 3 × max PTO; as written, it deadlocks, and only then. |
| `Lifecycle.EnterDrainingIn` | qconnection/src/connection.rs:443-452 | It acts only in `Raw`. Corrected, it leads to `Draining` with a 3 × max PTO sleep. As written, it deadlocks after the state change. |
| `Lifecycle.DieCall` | qconnection/src/connection.rs:474-476 | From `Closing` or `Draining` the handle ends in `Closed` with every held ID appended to the router. `Raw` and `Closed` reach `unreachable!` with the mutex held, which poisons it. |
| `Lifecycle.RaiseSignal` | qconnection/src/connection.rs:387 | The signal keeps the first error raised, with its kind. A later raise changes nothing, and the state, router and timer are never touched. |
| `Lifecycle.Close` | qconnection/src/connection.rs:382-391 | It acts only in `Raw`. In both variants the connection keeps an application-kind error carrying the message, and the signal is raised unless it already was. It deadlocks exactly when, as written, no space is salvageable; otherwise it runs on. |
| `Lifecycle.NoVaiablePathIn` | qconnection/src/connection.rs:468-470 | From `Raw` the handle ends `Closed` with every active ID removed and the no-viable-path error notified. As written, any other state also ends `Closed` with nothing removed. Corrected, any other state is left to its timer. The timer and signal are untouched. |
| `Lifecycle.DispatchSignal` | qconnection/src/connection.rs:511-525 | Before the signal is raised, or after the dispatch has acted, nothing happens. Otherwise it acts once on the first error's kind: Application does nothing, Transport leads to closing, CcfReceived to draining, and NoViablePath to `no_vaiable_path`. |
| `Lifecycle.ClosingToDraining` | qconnection/src/connection.rs:429 | This is the corrected hand-off. `Closing` becomes `Draining` with the same IDs and error. Any other state is left alone. |
| `Lifecycle.ClosingTask` | qconnection/src/connection.rs:422-433 | A CCF at `e ≤ 3 × pto` hands over to a draining sleep of `3 × pto − e`. This is corrected. As written, from `Closing`, the closing task panics and the handle stays `Closing` with no timer pending. A later CCF, or none, leads to `die`. The closing task ends either way. |
| `Lifecycle.TimerFires` | qconnection/src/connection.rs:426-464 | Expiry of the closing wait or of the draining sleep calls `die`. With no timer pending, nothing happens. |
| `Lifecycle.AccessRaw` | qconnection/src/connection.rs:254-258 | The accessors hand out the active connection only in `Raw`. In `Closing` or `Draining` they fail with that state's stored error. In `Closed` they reach `unreachable!` with the guard held, and nothing is returned. |
| `Lifecycle.IsActive` | qconnection/src/connection.rs:500-503 | True exactly when the state has left `Raw`. |
| `Lifecycle.IsActiveIffAccessorsRefuse` | qconnection/src/connection.rs:500-503 | `is_active` holds exactly when the accessors do not hand out the active connection. Outside `Closed` that means they refuse. |
| `Lifecycle.StepKeepsInv` | qconnection/src/connection.rs:382-476 | No event, corrected, deadlocks, lowers the rank or breaks the lifecycle invariant. This covers every event, including raise and dispatch as separate events and a direct `enter_draining`. The invariant covers ID accounting, notify-once and the timer matching the state. |
| `Lifecycle.RunKeepsInv` | qconnection/src/connection.rs:506-528 | The same holds for every sequence of events. |
| `Lifecycle.ReleasedExactlyOnce` | qconnection/src/connection.rs:151-162 | Take distinct IDs and any corrected run. Each ID is removed from the router at most once, and exactly once when the run reaches `Closed`. Nothing is removed before that. The subsystems either heard of nothing or each heard of one and the same error once: flow controller, streams, parameters, datagram flow, TLS abort and a single wakeup. |
| `Lifecycle.AsWrittenStepAccounted` | qconnection/src/connection.rs:134-162 | As written, no event removes an ID before `Closed`. On reaching `Closed` the router has gained either every held ID once, or nothing with a NoViablePath error on the signal. An active connection's subsystems are untouched, and leaving `Raw` notifies each of them once. |
| `Lifecycle.AsWrittenRunAccounted` | qconnection/src/connection.rs:506-528 | The same holds for every sequence of events as written. |
| `Lifecycle.AsWrittenReleasedAtMostOnce` | qconnection/src/connection.rs:148-161 | Take distinct IDs and any run as written. Each ID is removed at most once, and none before `Closed`. `Closed` means released once, or not released at all, and the latter only when the signal carries a NoViablePath error. A run that raises no NoViablePath error releases every ID on reaching `Closed`. The subsystems either heard of nothing or each heard of one and the same error once. |
| `Lifecycle.PathLossNeedsRaise` | qconnection/src/connection.rs:511-523 | In either variant, the signal takes the NoViablePath kind only from a raise of that kind: a run with no such raise never leaves it carrying NoViablePath. |
| `Lifecycle.SignalKeepsFirstError` | qconnection/src/connection.rs:514 | Once raised, the signal keeps the same error and kind through any later events. |
| `Lifecycle.FirstRaiseWins` | qconnection/src/connection.rs:514-522 | The error raised first on a fresh signal is the one kept, whatever is raised, closed or dispatched afterwards. |
| `Lifecycle.ActiveStaysActive` | qconnection/src/connection.rs:500-503 | In either variant, once `is_active` holds it holds after any run: `Raw` never recurs at the handle level. |
| `Lifecycle.TimerCompletesTeardown` | qconnection/src/connection.rs:426-431 | In either variant, when the pending timer of a closing or draining connection fires, the connection is `Closed`, with no timer and with every ID it held appended to the router once. |
| `Lifecycle.CcfThenDrainReleasesAll` | qconnection/src/connection.rs:426-429 | Corrected: a CCF at `e ≤ 3 × pto` leaves the connection draining for `3 × pto − e` with the same IDs and error, and the timer then releases all IDs. As written, the same CCF stalls the connection instead (`Lifecycle.AsWrittenCcfWhileClosingStalls`). |
| `Lifecycle.SecondRequestIsNoOp` | qconnection/src/connection.rs:382-452 | After leaving `Raw`, a second close, a direct `enter_draining`, another raised error or a dispatch leaves the state, router, subsystems and timer unchanged (corrected). |
| `Lifecycle.AsWrittenDrainingDeadlocks` | qconnection/src/connection.rs:443-452 | As written, a dispatched CCF signal, a direct `enter_draining`, or a dispatched transport error with no salvageable space deadlocks the run. Every ID stays registered. |
| `Lifecycle.StalledNeverReleases` | qconnection/src/connection.rs:422-433 | As written, a closing handle with no timer pending never removes an ID, whatever happens, unless someone calls `die`. |
| `Lifecycle.AsWrittenCcfWhileClosingStalls` | qconnection/src/connection.rs:429 | As written, a CCF during the closing wait ends the closing task in a panic. The handle stays `Closing` with no timer, so the timer releases nothing, and only an outside `die` releases the IDs. Corrected, the same CCF followed by the timer releases every ID. |
| `Lifecycle.AsWrittenPathLossLeaks` | qconnection/src/connection.rs:134-137 | As written, the sequence of a raised no-viable-path error, a close, then the dispatch ends `Closed` with no ID removed. The closing timer's `die` then poisons the mutex. Corrected, the same events and the timer release every ID. |
| `Lifecycle.CloseScenario` | qconnection/src/connection.rs:382-441 | In either variant, with PTOs 100 and 150, `close("bye")` leads to `Closing` with a 450 wait. The timer then releases every ID. |

## Left out

- Tokio task spawning, the forwarding of received packets into the closing state, and the `Arc<Mutex<..>>` locking are not modelled as such. Each event is taken whole. `close` holds the lock twice, first to raise the signal and then inside `should_enter_closing`. Another event in between is expressed by a `Raise` of the Application kind followed by the other event and then `AppClose`, which finds the signal already raised. The effects of locking that the model keeps are re-entry deadlock (`DrainFor`), poisoning by a panic with the guard held (`DieCall`), and a task panic with no guard held (`DrainFor`). `AccessRaw` only reports the accessors' poisoning case, as `None`. No accessor event is fed into `Run`.
- `tokio::time::timeout` and `sleep` are reduced to the arithmetic on `nat` durations. A CCF at elapsed `e` wins the race iff `e ≤ 3 × pto`, because the inner future is polled first. Scheduler delay is not modelled, so `3 × pto − e` never underflows.
- `new_client`, `new_server`, `add_initial_path`, `update_path_recv_time` and `recv_retry_packet` are not modelled. They depend on rustls, the path manager and the initial space's sent-packet records.
- The accessors' asynchronous parts (`remote_params.read().await`, `open_bi`, `accept_uni`, …) are not modelled. Only the synchronous state check before the await is.
- The internals of the subsystems are not modelled: the streams, flow controller and parameters (each is a log of errors delivered), TLS `abort` (a flag), congestion-control `pto_time` (an input), and the router's global map (a removal log).
- `Connection.Broadcast`: the wakeup of `notify_waiters` is a counter, not a wakeup of actual tasks.
- The reader and writer internals are not part of this model.
  - The size checks of `recv_datagram` and `try_read_datagram` are assumptions of this model: those checks live in the reader and writer, whose source is not shown.
  - `TransportLimit` consumption and the DATAGRAM frame header overhead are not modelled.
  - An errored writer is assumed to refuse updates with its stored error.
  - The error reason texts are placeholders.
- The frame type attached by `Error::with_default_fty` is not kept.
- `crate::error::ConnError` is not part of this model. `on_error` and `set_app_error` are modelled as raising one shared signal whose first error wins (`Lifecycle.RaiseSignal`), and `did_error_occur` as waking the dispatch once on that first error. `close` raises it with the Application kind, which the dispatch treats as a no-op.
- `Datagrams.New`: the `u64 as _` casts at `qunreliable/src/flow.rs:33-34` are taken as the identity on `nat`. A `usize` narrower than 64 bits, which would truncate, is not modelled.
- `no_vaiable_path` is modelled only as the dispatch of a NoViablePath signal. Other callers inside the crate are not part of this model.
- `Lifecycle.RunKeepsInv`, `Lifecycle.StepKeepsInv` and `Lifecycle.ReleasedExactlyOnce` state exactly-once release for the corrected variant only. As written, a connection that loses its paths after leaving `Raw` ends `Closed` with nothing released (`Lifecycle.AsWrittenPathLossLeaks`), so the as-written promise is at-most-once, and exactly-once only for runs that raise no NoViablePath error (`Lifecycle.AsWrittenReleasedAtMostOnce`).
- `Lifecycle.SecondRequestIsNoOp` is stated for the corrected variant. As written, a dispatched NoViablePath signal after leaving `Raw` is not a no-op: it ends `Closed`.
- `quix/src/quic/connection.rs` is not modelled: it is an empty stub with no behaviour.
- `qbase/src/util.rs` is not modelled: it only declares modules and re-exports.

## Findings

| source | as written | input that shows it | evidently intended | confidence | as-written member | corrected member |
|---|---|---|---|---|---|---|
| qconnection/src/connection.rs:443-452 | `enter_draining` keeps its mutex guard alive and calls `draining`, which locks the same `std::sync::Mutex` again and never returns. | An active connection whose error signal has kind CcfReceived. | Drop the guard before calling `draining`, as `close` does at line 388. Draining then lasts 3 × max PTO and ends in `die`. | medium, not executed | `Lifecycle.AsWrittenDrainingDeadlocks` | `Lifecycle.EnterDrainingIn` |
| qconnection/src/connection.rs:435-437 | The `Draining` branch of `should_enter_closing` calls `draining` while the guard taken at line 400 is alive, so it re-locks the mutex in the same way. | A transport error on an active connection whose handshake and 1-RTT spaces are both discarded. | Same as above: release the guard, then start the 3 × max PTO draining sleep. | medium, not executed | `Lifecycle.AsWrittenDrainingDeadlocks` | `Lifecycle.ShouldEnterClosing` |
| qconnection/src/connection.rs:429 | On a CCF the closing task calls `draining`, whose assertion at line 457 requires `Draining`. No transition moves `Closing` to `Draining`, so the assertion fails. Its temporary guard is already dropped, so only the closing task dies. The handle stays `Closing` with no timer, and its IDs stay registered unless something outside calls `die`. | A closing connection that receives a CCF at elapsed `e ≤ 3 × pto`. | Move `Closing` to `Draining`, keeping the IDs and the error. Sleep `3 × pto − e`, then `die`. | medium, not executed | `Lifecycle.AsWrittenCcfWhileClosingStalls` | `Lifecycle.ClosingToDraining` |
| qconnection/src/connection.rs:134-137 | `no_vaiable_path` replaces a closing or draining state with `Closed` and returns without removing the IDs that state held. The pending closing or draining timer later calls `die`, which meets `Closed` at line 156 and panics with the mutex held. | A NoViablePath error is raised on an active connection, the application calls `close` before the dispatching task runs, and then the dispatch runs. | Leave a closing or draining state to its own timer, whose `die` releases the IDs once. | medium, not executed | `Lifecycle.AsWrittenPathLossLeaks` | `Lifecycle.NoVaiablePathIn` |

The rest of the lifecycle model (`Run`, `StepKeepsInv`, `RunKeepsInv`, `ReleasedExactlyOnce`) uses the corrected variant. The as-written variant is the same code with the `AsWritten` selector. The only differences are at the four places above.

=== FILE: arc_connection.dfy ===
/** `ArcConnection` of `qconnection/src/connection.rs`: the shared handle
    around the state machine, the connection-error signal and its dispatching
    task, the application's `close` and `die`, the public
    `enter_draining`, the closing and draining timers, the accessor state
    check and `is_active`.

    Tasks and the clock are not modelled as such. The one timer task the
    handle has pending is a `Task` value, and the environment drives the
    handle with `Event`s: an error raised on the signal, the dispatching task
    waking, a close-confirmation frame (CCF) arriving a given time after the
    closing task started, the pending timer expiring, or a direct call.

    Three places in the source cannot do what they evidently mean to do, so
    each is modelled in both forms, selected by `Variant`:
    - `enter_draining` and the draining branch of `should_enter_closing`
      call `draining` while their own guard on the state mutex is still
      alive. `draining` locks the same mutex again, which never returns.
    - When the closing task sees the CCF it calls `draining`, which asserts
      that the state is `Draining`. Nothing ever moves `Closing` to
      `Draining`, so the assertion fails and the closing task dies.
    - When every path is lost after the connection has already left `Raw`,
      `no_vaiable_path` drops the closing or draining state and ends in
      `Closed` without removing its IDs from the router.
    `AsWritten` follows the code. `Corrected` releases the guard first, moves
    `Closing` to `Draining` before starting the draining timer, and leaves a
    closing or draining state to its timer when the paths are lost. */
module Lifecycle {
  import opened QBase
  import opened Connection
  import Datagrams

  /** Why the connection-error signal fired (`crate::error::ConnErrorKind`). */
  datatype ConnErrorKind = Application | Transport | CcfReceived | NoViablePath

  /** The timer task the handle has spawned and not yet seen finish. */
  datatype Task = Idle | ClosingWait(pto: nat) | DrainingSleep(remaining: nat)

  /** The handle: the state behind the mutex, the router and shared
      subsystems, the receive handles redirected into the closing state, the
      pending timer, the connection-error signal (the first error raised,
      with its kind) and whether the dispatching task has acted on it. */
  datatype ArcConnection = ArcConnection(
    state: ConnState,
    env: Env,
    forwarded: seq<Handle>,
    timer: Task,
    signal: Option<(ConnErrorKind, Error)>,
    dispatched: bool)

  /** How an operation ended:
      - `Running`: normally;
      - `TaskPanicked`: a spawned task panicked while holding no guard; the
        task is gone and the handle goes on as it is;
      - `Poisoned`: a panic while holding the state mutex poisons it, so
        every later `lock().unwrap()` panics and nothing runs afterwards;
      - `Deadlocked`: blocked for ever re-locking the mutex its own caller
        still holds. */
  datatype Outcome =
    | Running(conn: ArcConnection)
    | TaskPanicked(conn: ArcConnection)
    | Poisoned(conn: ArcConnection)
    | Deadlocked(conn: ArcConnection)

  datatype Variant = AsWritten | Corrected

  /** What the environment does to a connection. */
  datatype Event =
    | AppClose(msg: string)
    | Raise(kind: ConnErrorKind, error: Error)
    | Dispatch
    | CallEnterDraining(error: Error)
    | PeerCcf(elapsed: nat)
    | TimerExpired
    | AppDie

  /** The closing wait and the full draining time: `pto * 3`. */
  function Budget(pto: nat): nat {
    pto * 3
  }

  /** The state can take any transition it may meet: an active connection
      has at least one path (`max().unwrap()`). */
  predicate Ready(c: ArcConnection) {
    c.state.Raw? ==> |c.state.raw.ptos| > 0
  }

  /** The run goes on after `o`: only a poisoned mutex or a deadlock stops it. */
  predicate Continues(o: Outcome) {
    (o.Running? || o.TaskPanicked?) && Ready(o.conn)
  }

  /** `From<RawConnection>`: the fresh handle, with the signal not yet raised. */
  function FromRaw(raw: RawConnection, shared: Subsystems): (c: ArcConnection)
    ensures c.state == Raw(raw) && c.env == Env(shared, [])
    ensures c.timer.Idle? && c.signal.None? && !c.dispatched && c.forwarded == []
  {
    ArcConnection(Raw(raw), Env(shared, []), [], Idle, None, false)
  }

  /** `draining`: asserts the state is `Draining` and spawns the sleep that
      ends in `die`. Called with the caller's guard still held, its own
      `lock()` never returns. Otherwise the guard of the assertion is gone
      before the assertion panics, so a failed assertion ends only the
      calling task. */
  function DrainFor(c: ArcConnection, remaining: nat, guardHeld: bool): (r: Outcome)
    ensures guardHeld ==> r == Deadlocked(c)
    ensures !guardHeld && !c.state.Draining? ==> r == TaskPanicked(c)
    ensures !guardHeld && c.state.Draining? ==> r == Running(c.(timer := DrainingSleep(remaining)))
  {
    if guardHeld then Deadlocked(c)
    else if !c.state.Draining? then TaskPanicked(c)
    else Running(c.(timer := DrainingSleep(remaining)))
  }

  /** `should_enter_closing`: only from `Raw`. When the state moves to
      `Closing`, the receive handles are redirected into it and the closing
      task waits up to `3 × pto`. When it moves straight to `Draining`, the
      handles are dropped and the draining timer gets the full `3 × pto`. */
  function ShouldEnterClosing(v: Variant, c: ArcConnection, error: Error): (r: Outcome)
    requires Ready(c)
    ensures !c.state.Raw? ==> r == Running(c)
    ensures r.conn.signal == c.signal && r.conn.dispatched == c.dispatched
    ensures c.state.Raw? ==>
      && var pto := MaxPto(c.state.raw.ptos);
      && r.conn.env.router == c.env.router
      && NotifiedOnce(c.env.shared, r.conn.env.shared, error)
      && HeldCids(r.conn.state) == HeldCids(c.state)
      && StoredError(r.conn.state) == Some(error)
      && (r.conn.state.Closing? || r.conn.state.Draining?)
      && (r.conn.state.Draining? <==> c.state.raw.hs.None? && c.state.raw.data.None?)
      && (r.conn.state.Closing? ==>
            && r.Running?
            && r.conn.timer == ClosingWait(pto)
            && r.conn.forwarded == c.forwarded + c.state.raw.joinHandles)
      && (r.conn.state.Draining? ==> r.conn.forwarded == c.forwarded)
      && (r.conn.state.Draining? && v.Corrected? ==>
            r.Running? && r.conn.timer == DrainingSleep(Budget(pto)))
      && (r.Deadlocked? <==> v.AsWritten? && r.conn.state.Draining?)
  {
    if !c.state.Raw? then Running(c)
    else
      var st := ShouldEnterClose(c.state, c.env, error);
      var (handles, pto) := st.output.value;
      var c1 := c.(state := st.next, env := st.env);
      if st.next.Closing? then
        Running(c1.(forwarded := c.forwarded + handles, timer := ClosingWait(pto)))
      else
        DrainFor(c1, Budget(pto), v.AsWritten?)
  }

  /** `enter_draining`: only from `Raw`; moves to `Draining` and starts the
      draining timer with the full `3 × pto`. */
  function EnterDrainingIn(v: Variant, c: ArcConnection, error: Error): (r: Outcome)
    requires Ready(c)
    ensures !c.state.Raw? ==> r == Running(c)
    ensures r.conn.signal == c.signal && r.conn.dispatched == c.dispatched
    ensures c.state.Raw? && v.Corrected? ==>
      && r.Running?
      && r.conn.state == Draining(DrainingConnection(c.state.raw.localCids, error))
      && r.conn.timer == DrainingSleep(Budget(MaxPto(c.state.raw.ptos)))
      && r.conn.env.router == c.env.router
      && NotifiedOnce(c.env.shared, r.conn.env.shared, error)
      && r.conn.forwarded == c.forwarded
    ensures c.state.Raw? && v.AsWritten? ==> r.Deadlocked? && r.conn.state.Draining?
  {
    var st := EnterDraining(c.state, c.env, error);
    if st.output.None? then Running(c)
    else DrainFor(c.(state := st.next, env := st.env), Budget(st.output.value), v.AsWritten?)
  }

  /** `die`: `Closing` and `Draining` release their IDs and end in `Closed`;
      `Raw` and `Closed` reach `unreachable!` with the mutex held. */
  function DieCall(c: ArcConnection): (r: Outcome)
    ensures c.state.Closing? || c.state.Draining? ==>
      r == Running(c.(state := Closed, env := c.env.(router := c.env.router + HeldCids(c.state))))
    ensures c.state.Raw? || c.state.Closed? ==> r == Poisoned(c)
  {
    if c.state.Closing? || c.state.Draining? then
      var st := Die(c.state, c.env);
      Running(c.(state := st.next, env := st.env))
    else Poisoned(c)
  }

  /** `ConnError::on_error` and `set_app_error`: the signal keeps the first
      error raised; a later one changes nothing. */
  function RaiseSignal(c: ArcConnection, kind: ConnErrorKind, error: Error): (r: ArcConnection)
    ensures r.state == c.state && r.env == c.env && r.timer == c.timer && r.dispatched == c.dispatched
    ensures r.forwarded == c.forwarded
    ensures c.signal.None? ==> r.signal == Some((kind, error))
    ensures c.signal.Some? ==> r == c
  {
    if c.signal.None? then c.(signal := Some((kind, error))) else c
  }

  /** `close`: only from `Raw`. Builds an application error from `msg`,
      raises it on the signal (where the dispatching task treats it as a
      no-op) and enters closing with the guard released. */
  function Close(v: Variant, c: ArcConnection, msg: string): (r: Outcome)
    requires Ready(c)
    ensures !c.state.Raw? ==> r == Running(c)
    ensures c.state.Raw? ==>
      && StoredError(r.conn.state) == Some(Error(ErrorKind.Application, msg))
      && r.conn.signal.Some?
      && (c.signal.None? ==> r.conn.signal == Some((ConnErrorKind.Application, Error(ErrorKind.Application, msg))))
      && (r.Running? || r.Deadlocked?)
      && (r.Deadlocked? <==> v.AsWritten? && c.state.raw.hs.None? && c.state.raw.data.None?)
  {
    if !c.state.Raw? then Running(c)
    else
      var error := Error(ErrorKind.Application, msg);
      ShouldEnterClosing(v, RaiseSignal(c, ConnErrorKind.Application, error), error)
  }

  /** `no_vaiable_path` on the handle. As written it ends in `Closed` from
      any state; corrected, a closing or draining state is left to its timer. */
  function NoVaiablePathIn(v: Variant, c: ArcConnection): (r: Outcome)
    ensures r.Running? && r.conn.timer == c.timer && r.conn.signal == c.signal
    ensures r.conn.dispatched == c.dispatched
    ensures c.state.Raw? ==>
      && r.conn.state.Closed?
      && r.conn.env.router == c.env.router + c.state.raw.localCids
      && NotifiedOnce(c.env.shared, r.conn.env.shared, NoViablePathError())
    ensures !c.state.Raw? && v.AsWritten? ==> r == Running(c.(state := Closed))
    ensures !c.state.Raw? && v.Corrected? ==> r == Running(c)
  {
    if !c.state.Raw? && v.Corrected? then Running(c)
    else
      var st := NoVaiablePath(c.state, c.env);
      Running(c.(state := st.next, env := st.env))
  }

  /** The dispatching task spawned by `From<RawConnection>`: once the signal
      is raised it wakes, once, and acts on the kind of the first error:
      nothing for an application close, `should_enter_closing` for a
      transport error, `enter_draining` for a received CCF and
      `no_vaiable_path` when the paths are gone. */
  function DispatchSignal(v: Variant, c: ArcConnection): (r: Outcome)
    requires Ready(c)
    ensures c.signal.None? || c.dispatched ==> r == Running(c)
    ensures c.signal.Some? && !c.dispatched ==>
      var c1 := c.(dispatched := true);
      var error := c.signal.value.1;
      match c.signal.value.0
      case Application => r == Running(c1)
      case Transport => r == ShouldEnterClosing(v, c1, error)
      case CcfReceived => r == EnterDrainingIn(v, c1, error)
      case NoViablePath => r == NoVaiablePathIn(v, c1)
  {
    if c.signal.None? || c.dispatched then Running(c)
    else
      var c1 := c.(dispatched := true);
      var (kind, error) := c.signal.value;
      match kind
      case Application => Running(c1)
      case Transport => ShouldEnterClosing(v, c1, error)
      case CcfReceived => EnterDrainingIn(v, c1, error)
      case NoViablePath => NoVaiablePathIn(v, c1)
  }

  /** The corrected `Closing` to `Draining` move: the draining state keeps the
      closing state's IDs and error. Every other state is left as it is. */
  function ClosingToDraining(s: ConnState): (r: ConnState)
    ensures s.Closing? ==> r.Draining? && HeldCids(r) == HeldCids(s) && StoredError(r) == StoredError(s)
    ensures !s.Closing? ==> r == s
  {
    if s.Closing? then Draining(DrainingConnection(s.closing.localCids, s.closing.error)) else s
  }

  /** The closing task: a CCF seen `e ≤ 3 × pto` after it started hands over to
      draining for the rest of the budget, `3 × pto − e`; otherwise the
      timeout ends the connection with `die`. Either way the closing task ends. */
  function ClosingTask(v: Variant, c: ArcConnection, ccf: Option<nat>): (r: Outcome)
    requires c.timer.ClosingWait?
    ensures var pto := c.timer.pto;
      var c1 := c.(timer := Idle);
      && (ccf.None? || ccf.value > Budget(pto) ==> r == DieCall(c1))
      && (ccf.Some? && ccf.value <= Budget(pto) ==>
            var left := Budget(pto) - ccf.value;
            && (c.state.Closing? && v.AsWritten? ==> r == TaskPanicked(c1))
            && (c.state.Closing? && v.Corrected? ==>
                  r == Running(c1.(state := ClosingToDraining(c.state), timer := DrainingSleep(left))))
            && (c.state.Draining? ==> r == Running(c1.(timer := DrainingSleep(left))))
            && (c.state.Raw? || c.state.Closed? ==> r == TaskPanicked(c1)))
  {
    var pto := c.timer.pto;
    var c1 := c.(timer := Idle);
    if ccf.Some? && ccf.value <= Budget(pto) then
      var remaining := Budget(pto) - ccf.value;
      if v.Corrected? then DrainFor(c1.(state := ClosingToDraining(c1.state)), remaining, false)
      else DrainFor(c1, remaining, false)
    else DieCall(c1)
  }

  /** The pending timer fires: the closing wait times out, or the draining
      sleep ends; both call `die`. */
  function TimerFires(v: Variant, c: ArcConnection): (r: Outcome)
    ensures c.timer.Idle? ==> r == Running(c)
    ensures c.timer.DrainingSleep? ==> r == DieCall(c.(timer := Idle))
    ensures c.timer.ClosingWait? ==> r == DieCall(c.(timer := Idle))
  {
    match c.timer
    case Idle => Running(c)
    case ClosingWait(_) => ClosingTask(v, c, None)
    case DrainingSleep(_) => DieCall(c.(timer := Idle))
  }

  /** The handle's reaction to one event. A CCF reaches only a closing task
      that is still waiting. */
  function OnEvent(v: Variant, c: ArcConnection, ev: Event): Outcome
    requires Ready(c)
  {
    match ev
    case AppClose(msg) => Close(v, c, msg)
    case Raise(kind, e) => Running(RaiseSignal(c, kind, e))
    case Dispatch => DispatchSignal(v, c)
    case CallEnterDraining(e) => EnterDrainingIn(v, c, e)
    case PeerCcf(e) => if c.timer.ClosingWait? then ClosingTask(v, c, Some(e)) else Running(c)
    case TimerExpired => TimerFires(v, c)
    case AppDie => DieCall(c)
  }

  /** Feeds the events in order. A task that panics ends alone; a poisoned
      mutex or a deadlock ends the run. */
  function Run(v: Variant, c: ArcConnection, evs: seq<Event>): Outcome
    requires Ready(c)
    decreases |evs|
  {
    if |evs| == 0 then Running(c)
    else
      var o := OnEvent(v, c, evs[0]);
      if Continues(o) then Run(v, o.conn, evs[1..]) else o
  }

  /** The accessor state check of `open_bi_stream`, `open_uni_stream`,
      `accept_bi_stream`, `accept_uni_stream`, `datagram_reader` and
      `datagram_writer`: an active connection is handed out, a closing or
      draining one refuses with the error it keeps, and a closed one reaches
      `unreachable!` with the guard held, which poisons the mutex (`None`). */
  function AccessRaw(s: ConnState): (r: Option<Result<RawConnection>>)
    ensures r.None? <==> s.Closed?
    ensures r.Some? ==> (r.value.Ok? <==> s.Raw?)
    ensures r.Some? && r.value.Ok? ==> r.value.value == s.raw
    ensures r.Some? && r.value.Err? ==> StoredError(s) == Some(r.value.error)
  {
    match s
    case Raw(raw) => Some(Ok(raw))
    case Closing(closing) => Some(Err(closing.error))
    case Draining(draining) => Some(Err(draining.error))
    case Closed => None
  }

  /** `is_active`, as written: true exactly when the state is NOT `Raw`. */
  function IsActive(c: ArcConnection): (r: bool)
    ensures r <==> Rank(c.state) > 0
  {
    !c.state.Raw?
  }

  /** `is_active` answers true exactly when the accessors do not hand the
      active connection out: they refuse, or, once `Closed`, panic. */
  lemma IsActiveIffAccessorsRefuse(c: ArcConnection)
    ensures IsActive(c) <==> !(AccessRaw(c.state).Some? && AccessRaw(c.state).value.Ok?)
    ensures IsActive(c) && !c.state.Closed? ==> AccessRaw(c.state).value.Err?
  {
  }

  /** What holds of every handle reachable in a corrected run from
      `FromRaw(raw, s0)` where `raw` holds the IDs `cids`:
      - the IDs are either all still held (and none released) or, once
        `Closed`, all released, in order, exactly once;
      - an active connection has its paths, no timer and untouched subsystems;
      - leaving `Raw` notified every subsystem once, with the error a closing
        or draining state keeps;
      - a closing state has its closing wait pending, a draining state its
        draining sleep. */
  ghost predicate Inv(c: ArcConnection, cids: seq<Cid>, s0: Subsystems) {
    && (c.state.Closed? ==> c.env.router == cids)
    && (!c.state.Closed? ==> c.env.router == [] && HeldCids(c.state) == cids)
    && (c.state.Raw? ==> |c.state.raw.ptos| > 0 && c.timer.Idle? && c.env.shared == s0)
    && (!c.state.Raw? ==>
          && |c.env.shared.streams| == |s0.streams| + 1
          && NotifiedOnce(s0, c.env.shared, c.env.shared.streams[|s0.streams|]))
    && (c.state.Closing? || c.state.Draining? ==> c.env.shared.streams[|s0.streams|] == StoredError(c.state).value)
    && (c.state.Closing? ==> c.timer.ClosingWait?)
    && (c.state.Draining? ==> c.timer.DrainingSleep?)
  }

  /** `o` did not deadlock, keeps `Inv` and did not lower the rank of `c`. */
  ghost predicate Kept(c: ArcConnection, o: Outcome, cids: seq<Cid>, s0: Subsystems) {
    && !o.Deadlocked?
    && Inv(o.conn, cids, s0)
    && Rank(o.conn.state) >= Rank(c.state)
  }

  /** The corrected `should_enter_closing` keeps `Inv`. */
  lemma EnterClosingKeepsInv(c: ArcConnection, e: Error, cids: seq<Cid>, s0: Subsystems)
    requires Ready(c) && Inv(c, cids, s0)
    ensures Kept(c, ShouldEnterClosing(Corrected, c, e), cids, s0)
  {
  }

  /** The corrected `enter_draining` keeps `Inv`. */
  lemma EnterDrainingKeepsInv(c: ArcConnection, e: Error, cids: seq<Cid>, s0: Subsystems)
    requires Ready(c) && Inv(c, cids, s0)
    ensures Kept(c, EnterDrainingIn(Corrected, c, e), cids, s0)
  {
  }

  /** The corrected dispatch keeps `Inv`, whatever the kind of the signal. */
  lemma DispatchKeepsInv(c: ArcConnection, cids: seq<Cid>, s0: Subsystems)
    requires Ready(c) && Inv(c, cids, s0)
    ensures Kept(c, DispatchSignal(Corrected, c), cids, s0)
  {
    if c.signal.Some? && !c.dispatched {
      var c1 := c.(dispatched := true);
      match c.signal.value.0
      case Application =>
      case Transport => EnterClosingKeepsInv(c1, c.signal.value.1, cids, s0);
      case CcfReceived => EnterDrainingKeepsInv(c1, c.signal.value.1, cids, s0);
      case NoViablePath =>
    }
  }

  /** A CCF into the closing wait keeps `Inv` in the corrected run. */
  lemma CcfKeepsInv(c: ArcConnection, e: nat, cids: seq<Cid>, s0: Subsystems)
    requires Ready(c) && Inv(c, cids, s0)
    ensures Kept(c, OnEvent(Corrected, c, PeerCcf(e)), cids, s0)
  {
    if c.timer.ClosingWait? {
      assert OnEvent(Corrected, c, PeerCcf(e)) == ClosingTask(Corrected, c, Some(e));
    }
  }

  /** The timer or a forced `die` keeps `Inv` in the corrected run. */
  lemma DieKeepsInv(c: ArcConnection, ev: Event, cids: seq<Cid>, s0: Subsystems)
    requires Ready(c) && Inv(c, cids, s0)
    requires ev.TimerExpired? || ev.AppDie?
    ensures Kept(c, OnEvent(Corrected, c, ev), cids, s0)
  {
    if ev.TimerExpired? && !c.timer.Idle? {
      assert OnEvent(Corrected, c, ev) == DieCall(c.(timer := Idle));
    }
  }

  /** One corrected event keeps `Inv`, never lowers the rank, and never
      deadlocks. */
  lemma StepKeepsInv(c: ArcConnection, ev: Event, cids: seq<Cid>, s0: Subsystems)
    requires Ready(c) && Inv(c, cids, s0)
    ensures Kept(c, OnEvent(Corrected, c, ev), cids, s0)
  {
    match ev
    case AppClose(msg) =>
      if c.state.Raw? {
        var error := Error(ErrorKind.Application, msg);
        EnterClosingKeepsInv(RaiseSignal(c, ConnErrorKind.Application, error), error, cids, s0);
      }
    case Raise(kind, e) =>
    case Dispatch => DispatchKeepsInv(c, cids, s0);
    case CallEnterDraining(e) => EnterDrainingKeepsInv(c, e, cids, s0);
    case PeerCcf(e) => CcfKeepsInv(c, e, cids, s0);
    case TimerExpired => DieKeepsInv(c, ev, cids, s0);
    case AppDie => DieKeepsInv(c, ev, cids, s0);
  }

  /** The whole corrected lifecycle, for any interleaving of closes, raised
      errors, dispatches, direct calls, CCFs, timer expiries and forced
      deaths: `Inv` holds throughout, the state only moves forward and no run
      deadlocks. */
  lemma {:induction false} RunKeepsInv(c: ArcConnection, evs: seq<Event>, cids: seq<Cid>, s0: Subsystems)
    requires Ready(c) && Inv(c, cids, s0)
    ensures Kept(c, Run(Corrected, c, evs), cids, s0)
    decreases |evs|
  {
    if |evs| > 0 {
      StepKeepsInv(c, evs[0], cids, s0);
      var o := OnEvent(Corrected, c, evs[0]);
      if Continues(o) {
        RunKeepsInv(o.conn, evs[1..], cids, s0);
      }
    }
  }

  /** Exactly-once release: from a fresh handle whose IDs are distinct, every
      corrected run removes each ID from the router at most once, and exactly
      once if the connection has reached `Closed`; the state never returns to
      `Raw` once it has left it, and the subsystems hear of at most one error. */
  lemma ReleasedExactlyOnce(raw: RawConnection, s0: Subsystems, evs: seq<Event>)
    requires |raw.ptos| > 0 && Distinct(raw.localCids)
    ensures var o := Run(Corrected, FromRaw(raw, s0), evs);
      && !o.Deadlocked?
      && (forall x :: x in raw.localCids ==> multiset(o.conn.env.router)[x] <= 1)
      && (o.conn.state.Closed? ==> forall x :: x in raw.localCids ==> multiset(o.conn.env.router)[x] == 1)
      && (!o.conn.state.Closed? ==> o.conn.env.router == [])
      && |o.conn.env.shared.streams| <= |s0.streams| + 1
      && (o.conn.env.shared == s0 || exists e :: NotifiedOnce(s0, o.conn.env.shared, e))
  {
    var c := FromRaw(raw, s0);
    RunKeepsInv(c, evs, raw.localCids, s0);
    DistinctCountsOnce(raw.localCids);
    var o := Run(Corrected, c, evs);
    if !o.conn.state.Raw? {
      assert NotifiedOnce(s0, o.conn.env.shared, o.conn.env.shared.streams[|s0.streams|]);
    }
  }

  /** The signal was raised first with kind NoViablePath. */
  predicate SignalsPathLoss(c: ArcConnection) {
    c.signal.Some? && c.signal.value.0 == ConnErrorKind.NoViablePath
  }

  /** What holds of every handle reachable in a run as written from
      `FromRaw(raw, s0)` where `raw` holds the IDs `cids`:
      - the IDs are all still held and none released, or the state is
        `Closed` and they were released once, or not at all; not at all
        only when the signal carries a NoViablePath error;
      - an active connection's subsystems are untouched, and leaving `Raw`
        notified every subsystem once. */
  ghost predicate Accounted(c: ArcConnection, cids: seq<Cid>, s0: Subsystems) {
    && (c.state.Closed? ==> c.env.router == cids || (c.env.router == [] && SignalsPathLoss(c)))
    && (!c.state.Closed? ==> c.env.router == [] && HeldCids(c.state) == cids)
    && (c.state.Raw? ==> c.env.shared == s0)
    && (!c.state.Raw? ==>
          && |c.env.shared.streams| == |s0.streams| + 1
          && NotifiedOnce(s0, c.env.shared, c.env.shared.streams[|s0.streams|]))
  }

  /** The dispatch as written keeps `Accounted`, whatever the kind of the
      signal. */
  lemma AsWrittenDispatchAccounted(c: ArcConnection, cids: seq<Cid>, s0: Subsystems)
    requires Ready(c) && Accounted(c, cids, s0)
    ensures Accounted(DispatchSignal(AsWritten, c).conn, cids, s0)
  {
    if c.signal.Some? && !c.dispatched {
      match c.signal.value.0
      case Application =>
      case Transport =>
      case CcfReceived =>
      case NoViablePath =>
    }
  }

  /** `should_enter_closing` as written keeps `Accounted`. */
  lemma AsWrittenEnterClosingAccounted(c: ArcConnection, e: Error, cids: seq<Cid>, s0: Subsystems)
    requires Ready(c) && Accounted(c, cids, s0)
    ensures Accounted(ShouldEnterClosing(AsWritten, c, e).conn, cids, s0)
  {
  }

  /** A CCF, the timer or a forced `die` as written keeps `Accounted`. */
  lemma AsWrittenTeardownAccounted(c: ArcConnection, ev: Event, cids: seq<Cid>, s0: Subsystems)
    requires Ready(c) && Accounted(c, cids, s0)
    requires ev.PeerCcf? || ev.TimerExpired? || ev.AppDie?
    ensures Accounted(OnEvent(AsWritten, c, ev).conn, cids, s0)
  {
    if ev.PeerCcf? && c.timer.ClosingWait? {
      assert OnEvent(AsWritten, c, ev) == ClosingTask(AsWritten, c, Some(ev.elapsed));
    }
  }

  /** One event as written keeps `Accounted`. */
  lemma AsWrittenStepAccounted(c: ArcConnection, ev: Event, cids: seq<Cid>, s0: Subsystems)
    requires Ready(c) && Accounted(c, cids, s0)
    ensures Accounted(OnEvent(AsWritten, c, ev).conn, cids, s0)
  {
    match ev
    case AppClose(msg) =>
      if c.state.Raw? {
        var error := Error(ErrorKind.Application, msg);
        AsWrittenEnterClosingAccounted(RaiseSignal(c, ConnErrorKind.Application, error), error, cids, s0);
      }
    case Raise(kind, e) =>
    case Dispatch => AsWrittenDispatchAccounted(c, cids, s0);
    case CallEnterDraining(e) =>
    case PeerCcf(_) => AsWrittenTeardownAccounted(c, ev, cids, s0);
    case TimerExpired => AsWrittenTeardownAccounted(c, ev, cids, s0);
    case AppDie => AsWrittenTeardownAccounted(c, ev, cids, s0);
  }

  lemma {:induction false} AsWrittenRunAccounted(c: ArcConnection, evs: seq<Event>, cids: seq<Cid>, s0: Subsystems)
    requires Ready(c) && Accounted(c, cids, s0)
    ensures Accounted(Run(AsWritten, c, evs).conn, cids, s0)
    decreases |evs|
  {
    if |evs| > 0 {
      AsWrittenStepAccounted(c, evs[0], cids, s0);
      var o := OnEvent(AsWritten, c, evs[0]);
      if Continues(o) {
        AsWrittenRunAccounted(o.conn, evs[1..], cids, s0);
      }
    }
  }

  /** No event of `evs` raises a NoViablePath error on the signal. */
  predicate KeepsPathsRaised(evs: seq<Event>) {
    forall i :: 0 <= i < |evs| ==> !(evs[i].Raise? && evs[i].kind == ConnErrorKind.NoViablePath)
  }

  /** Only a raise puts a kind on the signal: in either variant, a handle
      whose signal does not carry NoViablePath keeps it so through any run
      that raises no NoViablePath error. */
  lemma {:induction false} PathLossNeedsRaise(v: Variant, c: ArcConnection, evs: seq<Event>)
    requires Ready(c) && !SignalsPathLoss(c) && KeepsPathsRaised(evs)
    ensures !SignalsPathLoss(Run(v, c, evs).conn)
    decreases |evs|
  {
    if |evs| > 0 {
      var o := OnEvent(v, c, evs[0]);
      assert !(evs[0].Raise? && evs[0].kind == ConnErrorKind.NoViablePath);
      assert !SignalsPathLoss(o.conn);
      if Continues(o) {
        assert forall i :: 0 <= i < |evs[1..]| ==> evs[1..][i] == evs[i + 1];
        PathLossNeedsRaise(v, o.conn, evs[1..]);
      }
    }
  }

  /** At-most-once release as written: every run, however it ends, removes
      each ID from the router at most once, and none before `Closed`. `Closed`
      with nothing released happens only after a NoViablePath error, so a run
      that raises none releases every ID on reaching `Closed`; that `Closed`
      always means "released" needs the corrected variant
      (`AsWrittenPathLossLeaks`). The subsystems hear of at most one error. */
  lemma AsWrittenReleasedAtMostOnce(raw: RawConnection, s0: Subsystems, evs: seq<Event>)
    requires |raw.ptos| > 0 && Distinct(raw.localCids)
    ensures var o := Run(AsWritten, FromRaw(raw, s0), evs);
      && (forall x :: x in raw.localCids ==> multiset(o.conn.env.router)[x] <= 1)
      && (!o.conn.state.Closed? ==> o.conn.env.router == [])
      && (o.conn.state.Closed? ==> o.conn.env.router == raw.localCids || o.conn.env.router == [])
      && (o.conn.state.Closed? && o.conn.env.router != raw.localCids ==> SignalsPathLoss(o.conn))
      && (KeepsPathsRaised(evs) && o.conn.state.Closed? ==> o.conn.env.router == raw.localCids)
      && (o.conn.env.shared == s0 || exists e :: NotifiedOnce(s0, o.conn.env.shared, e))
  {
    var c := FromRaw(raw, s0);
    AsWrittenRunAccounted(c, evs, raw.localCids, s0);
    DistinctCountsOnce(raw.localCids);
    var o := Run(AsWritten, c, evs);
    if KeepsPathsRaised(evs) {
      PathLossNeedsRaise(AsWritten, c, evs);
    }
    if !o.conn.state.Raw? {
      assert NotifiedOnce(s0, o.conn.env.shared, o.conn.env.shared.streams[|s0.streams|]);
    }
  }

  /** Once raised, the signal keeps its first error for the rest of any run. */
  lemma {:induction false} SignalKeepsFirstError(v: Variant, c: ArcConnection, evs: seq<Event>)
    requires Ready(c) && c.signal.Some?
    ensures Run(v, c, evs).conn.signal == c.signal
    decreases |evs|
  {
    if |evs| > 0 {
      var o := OnEvent(v, c, evs[0]);
      assert o.conn.signal == c.signal;
      if Continues(o) {
        SignalKeepsFirstError(v, o.conn, evs[1..]);
      }
    }
  }

  /** First write wins: the error raised first is the one the signal keeps,
      whatever is raised, closed or dispatched afterwards. */
  lemma FirstRaiseWins(v: Variant, c: ArcConnection, kind: ConnErrorKind, e: Error, evs: seq<Event>)
    requires Ready(c) && c.signal.None?
    ensures Run(v, c, [Raise(kind, e)] + evs).conn.signal == Some((kind, e))
  {
    var c1 := RaiseSignal(c, kind, e);
    assert ([Raise(kind, e)] + evs)[1..] == evs;
    SignalKeepsFirstError(v, c1, evs);
  }

  /** Leaving `Raw` is for good: in either variant, a run from a closing,
      draining or closed handle never shows an inactive connection again. */
  lemma {:induction false} ActiveStaysActive(v: Variant, c: ArcConnection, evs: seq<Event>)
    requires Ready(c) && IsActive(c)
    ensures IsActive(Run(v, c, evs).conn)
    decreases |evs|
  {
    if |evs| > 0 {
      var o := OnEvent(v, c, evs[0]);
      assert !o.conn.state.Raw?;
      if Continues(o) {
        ActiveStaysActive(v, o.conn, evs[1..]);
      }
    }
  }

  /** A closing or draining connection whose timer is still pending always
      finishes, in either variant: when the timer fires it is `Closed` with
      every ID it held released. */
  lemma TimerCompletesTeardown(v: Variant, c: ArcConnection)
    requires (c.state.Closing? || c.state.Draining?) && !c.timer.Idle?
    ensures var o := OnEvent(v, c, TimerExpired);
      && o.Running? && o.conn.state.Closed? && o.conn.timer.Idle?
      && o.conn.env.router == c.env.router + HeldCids(c.state)
  {
  }

  /** The CCF hand-off: a CCF `e ≤ 3 × pto` into the closing wait leaves the
      connection draining for `3 × pto − e`, keeping its IDs and error; the
      draining timer then releases every ID. */
  lemma CcfThenDrainReleasesAll(c: ArcConnection, e: nat, cids: seq<Cid>, s0: Subsystems)
    requires Inv(c, cids, s0) && c.state.Closing? && e <= Budget(c.timer.pto)
    ensures var o := OnEvent(Corrected, c, PeerCcf(e));
      && o.Running?
      && o.conn.state == Draining(DrainingConnection(c.state.closing.localCids, c.state.closing.error))
      && o.conn.timer == DrainingSleep(Budget(c.timer.pto) - e)
      && Inv(o.conn, cids, s0)
      && var o2 := OnEvent(Corrected, o.conn, TimerExpired);
         o2.Running? && o2.conn.state.Closed? && o2.conn.env.router == cids
  {
  }

  /** A second terminal request is a no-op: once the connection has left
      `Raw`, closing again, calling `enter_draining`, raising another error
      or dispatching the signal leaves the state, the router, the subsystems
      and the timer as they are, so the error it keeps is the first one. */
  lemma SecondRequestIsNoOp(c: ArcConnection, msg: string, kind: ConnErrorKind, e: Error, cids: seq<Cid>, s0: Subsystems)
    requires Ready(c) && Inv(c, cids, s0) && !c.state.Raw?
    ensures OnEvent(Corrected, c, AppClose(msg)) == Running(c)
    ensures OnEvent(Corrected, c, CallEnterDraining(e)) == Running(c)
    ensures var o := OnEvent(Corrected, c, Raise(kind, e));
      o.Running? && o.conn.state == c.state && o.conn.env == c.env && o.conn.timer == c.timer
    ensures var o := OnEvent(Corrected, c, Dispatch);
      o.Running? && o.conn.state == c.state && o.conn.env == c.env && o.conn.timer == c.timer
  {
  }

  /** Finding: as written, a CCF signal on an active connection deadlocks in
      `enter_draining`, and so does a direct call of it; a transport error
      with no salvageable space deadlocks in `should_enter_closing`. The run
      stops there with every ID still registered in the router. */
  lemma {:induction false} AsWrittenDrainingDeadlocks(c: ArcConnection, e: Error, rest: seq<Event>)
    requires c.state.Raw? && |c.state.raw.ptos| > 0 && c.signal.None? && !c.dispatched && c.env.router == []
    ensures var o := Run(AsWritten, c, [Raise(ConnErrorKind.CcfReceived, e), Dispatch] + rest);
      o.Deadlocked? && o.conn.env.router == [] && HeldCids(o.conn.state) == c.state.raw.localCids
    ensures var o := Run(AsWritten, c, [CallEnterDraining(e)] + rest);
      o.Deadlocked? && o.conn.env.router == [] && HeldCids(o.conn.state) == c.state.raw.localCids
    ensures c.state.raw.hs.None? && c.state.raw.data.None? ==>
      var o := Run(AsWritten, c, [Raise(ConnErrorKind.Transport, e), Dispatch] + rest);
      o.Deadlocked? && o.conn.env.router == [] && HeldCids(o.conn.state) == c.state.raw.localCids
  {
    var ccf := [Raise(ConnErrorKind.CcfReceived, e), Dispatch] + rest;
    assert ccf[0] == Raise(ConnErrorKind.CcfReceived, e) && ccf[1..][0] == Dispatch;
    var direct := [CallEnterDraining(e)] + rest;
    assert direct[0] == CallEnterDraining(e);
    var transport := [Raise(ConnErrorKind.Transport, e), Dispatch] + rest;
    assert transport[0] == Raise(ConnErrorKind.Transport, e) && transport[1..][0] == Dispatch;
  }

  /** A closing state whose closing task is gone never releases anything
      as written: without a `die` from outside, no event removes an ID. */
  lemma {:induction false} StalledNeverReleases(c: ArcConnection, evs: seq<Event>)
    requires c.env.router == [] && c.timer.Idle? && (c.state.Closing? || c.state.Closed?)
    requires forall i :: 0 <= i < |evs| ==> !evs[i].AppDie?
    ensures Run(AsWritten, c, evs).conn.env.router == []
    decreases |evs|
  {
    if |evs| > 0 {
      var o := OnEvent(AsWritten, c, evs[0]);
      assert o.conn.env.router == [] && o.conn.timer.Idle? && (o.conn.state.Closing? || o.conn.state.Closed?);
      if Continues(o) {
        StalledNeverReleases(o.conn, evs[1..]);
      }
    }
  }

  /** Finding: as written, a CCF during the closing wait makes the closing
      task panic in `draining` (the state is still `Closing`). The handle
      goes on, but closing with no timer pending: the timer never fires, and
      only an outside `die` releases the IDs. The corrected run drains and the
      draining timer releases every ID. */
  lemma AsWrittenCcfWhileClosingStalls(c: ArcConnection, e: nat, cids: seq<Cid>, s0: Subsystems)
    requires Inv(c, cids, s0) && c.state.Closing? && e <= Budget(c.timer.pto)
    ensures var o := OnEvent(AsWritten, c, PeerCcf(e));
      && o == TaskPanicked(c.(timer := Idle))
      && OnEvent(AsWritten, o.conn, TimerExpired) == Running(o.conn)
      && var d := OnEvent(AsWritten, o.conn, AppDie);
         d.Running? && d.conn.state.Closed? && d.conn.env.router == cids
    ensures var o := Run(Corrected, c, [PeerCcf(e), TimerExpired]);
      o.Running? && o.conn.state.Closed? && o.conn.env.router == cids
  {
    CcfThenDrainReleasesAll(c, e, cids, s0);
    var o1 := OnEvent(Corrected, c, PeerCcf(e));
    var o2 := OnEvent(Corrected, o1.conn, TimerExpired);
    assert Run(Corrected, o1.conn, [TimerExpired]) == o2;
    assert [PeerCcf(e), TimerExpired][1..] == [TimerExpired];
  }

  /** Finding: as written, losing every path after a close leaks the IDs. A
      no-viable-path error is raised on an active connection, the application
      closes before the dispatching task wakes, and then the dispatch runs
      `no_vaiable_path` on the closing state: it ends `Closed` without
      removing a single ID, and the closing timer's `die` then meets `Closed`
      and poisons the mutex. Corrected, the dispatch leaves the closing state
      alone and the timer releases every ID. */
  lemma AsWrittenPathLossLeaks(raw: RawConnection, s0: Subsystems, e: Error, msg: string)
    requires |raw.ptos| > 0 && (raw.hs.Some? || raw.data.Some?)
    ensures var o := Run(AsWritten, FromRaw(raw, s0), [Raise(ConnErrorKind.NoViablePath, e), AppClose(msg), Dispatch]);
      && o.Running? && o.conn.state.Closed? && o.conn.env.router == []
      && OnEvent(AsWritten, o.conn, TimerExpired).Poisoned?
    ensures var o := Run(Corrected, FromRaw(raw, s0), [Raise(ConnErrorKind.NoViablePath, e), AppClose(msg), Dispatch, TimerExpired]);
      o.Running? && o.conn.state.Closed? && o.conn.env.router == raw.localCids
  {
    var c0 := FromRaw(raw, s0);
    var c1 := RaiseSignal(c0, ConnErrorKind.NoViablePath, e);
    var w2 := Close(AsWritten, c1, msg).conn;
    assert w2.state.Closing? && w2.timer.ClosingWait? && w2.env.router == [];
    var w3 := DispatchSignal(AsWritten, w2).conn;
    assert w3 == w2.(state := Closed, dispatched := true);
    assert Run(AsWritten, w2, [Dispatch]) == Running(w3);
    assert Run(AsWritten, c1, [AppClose(msg), Dispatch]) == Running(w3);
    var k2 := Close(Corrected, c1, msg).conn;
    assert k2.state.Closing? && k2.timer.ClosingWait? && k2.env.router == [];
    var k3 := DispatchSignal(Corrected, k2).conn;
    assert k3 == k2.(dispatched := true);
    var k4 := OnEvent(Corrected, k3, TimerExpired);
    assert k4.Running? && k4.conn.env.router == raw.localCids;
    assert Run(Corrected, k3, [TimerExpired]) == k4;
    assert Run(Corrected, k2, [Dispatch, TimerExpired]) == k4;
    assert Run(Corrected, c1, [AppClose(msg), Dispatch, TimerExpired]) == k4;
  }

  /** The closing-wait scenario: two paths with PTOs 100 and 150 ms, an
      application close with a salvageable space gives a closing wait of
      450 ms; if no CCF comes, the timer removes every ID once. */
  lemma CloseScenario(v: Variant, raw: RawConnection, s0: Subsystems)
    requires raw.ptos == [100, 150] && raw.data.Some?
    ensures var o := Close(v, FromRaw(raw, s0), "bye");
      && o.Running? && o.conn.state.Closing?
      && Budget(o.conn.timer.pto) == 450
      && var o2 := TimerFires(v, o.conn);
         o2.Running? && o2.conn.state.Closed? && o2.conn.env.router == raw.localCids
  {
    assert MaxPto(raw.ptos) == 150;
  }
}

=== FILE: conn_state.dfy ===
/** The connection state machine of `qconnection/src/connection.rs`: the
    closed sum `ConnState` and its four transitions. Every transition takes
    the old state, computes the new one and hands back what it produced.

    The subsystems the active connection shares with the application
    (datagram flow, flow controller, streams, parameters, TLS session) and
    the global router are passed in as an `Env`. The router is kept as the
    log of connection IDs removed from it. */
module Connection {
  import opened QBase
  import Datagrams

  /** A `JoinHandle<RcvdPackets>` of one background packet-receive task. */
  type Handle = nat

  /** The four receive-task handles of an active connection. */
  type RecvHandles = hs: seq<Handle> | |hs| == 4 witness [0, 0, 0, 0]

  /** The crypto context of a packet space once converted for closing. */
  datatype SpaceKeys = SpaceKeys(id: nat)

  /** The active connection, reduced to what the transitions consult.
      `hs` and `data` are the outcomes of converting the handshake and 1-RTT
      spaces for closing (`try_into().ok()`): `None` when the space can no
      longer be salvaged. `ptos` holds `pto_time(Epoch::Data)` of each path's
      congestion controller. */
  datatype RawConnection = RawConnection(
    hs: Option<SpaceKeys>,
    data: Option<SpaceKeys>,
    ptos: seq<nat>,
    localCids: seq<Cid>,
    joinHandles: RecvHandles)

  datatype ClosingConnection = ClosingConnection(
    error: Error,
    localCids: seq<Cid>,
    hs: Option<SpaceKeys>,
    oneRtt: Option<SpaceKeys>)

  datatype DrainingConnection = DrainingConnection(localCids: seq<Cid>, error: Error)

  datatype ConnState =
    | Raw(raw: RawConnection)
    | Closing(closing: ClosingConnection)
    | Draining(draining: DrainingConnection)
    | Closed

  /** Subsystems shared with the application. The flow controller, streams
      and parameters are opaque: each is the log of connection errors it
      has been told about, oldest first. */
  datatype Subsystems = Subsystems(
    datagrams: Datagrams.DatagramFlow,
    flowCtrl: seq<Error>,
    streams: seq<Error>,
    params: seq<Error>,
    tlsAborted: bool,
    wakeups: nat)

  /** Everything outside the state holder that a transition acts on. */
  datatype Env = Env(shared: Subsystems, router: seq<Cid>)

  /** A transition's result: the state stored back, the environment after
      it and the value handed to the caller. */
  datatype Transit<T> = Transit(next: ConnState, env: Env, output: Option<T>)

  /** The error `no_vaiable_path` raises. */
  function NoViablePathError(): Error {
    Error(ErrorKind.NoViablePath, "No viable path")
  }

  /** Position in the lifecycle Raw -> {Closing, Draining} -> Closed. */
  function Rank(s: ConnState): nat {
    match s
    case Raw(_) => 0
    case Closing(_) => 1
    case Draining(_) => 2
    case Closed => 3
  }

  /** The local connection IDs the state holds and has not released. */
  function HeldCids(s: ConnState): seq<Cid> {
    match s
    case Raw(r) => r.localCids
    case Closing(c) => c.localCids
    case Draining(d) => d.localCids
    case Closed => []
  }

  /** The error a closing or draining connection keeps. */
  function StoredError(s: ConnState): Option<Error> {
    match s
    case Closing(c) => Some(c.error)
    case Draining(d) => Some(d.error)
    case _ => None
  }

  /** `m` is the maximum of the non-empty `xs`. */
  predicate IsMax(m: nat, xs: seq<nat>) {
    m in xs && forall i :: 0 <= i < |xs| ==> xs[i] <= m
  }

  /** `iter().map(pto_time).max().unwrap()` over the paths. */
  function MaxPto(ptos: seq<nat>): (m: nat)
    requires |ptos| > 0
    ensures IsMax(m, ptos)
    decreases |ptos|
  {
    if |ptos| == 1 then ptos[0]
    else
      var rest := MaxPto(ptos[1..]);
      assert forall i :: 1 <= i < |ptos| ==> ptos[i] == ptos[1..][i - 1];
      if ptos[0] > rest then ptos[0] else rest
  }

  /** `sub` after being told about `e` once: every opaque subsystem logged it,
      the datagram flow took it, the TLS session is aborted and waiters woke. */
  predicate NotifiedOnce(sub: Subsystems, after: Subsystems, e: Error) {
    && after.datagrams == Datagrams.OnConnError(sub.datagrams, e)
    && after.flowCtrl == sub.flowCtrl + [e]
    && after.streams == sub.streams + [e]
    && after.params == sub.params + [e]
    && after.tlsAborted
    && after.wakeups == sub.wakeups + 1
  }

  /** The six notifications at the head of every transition out of `Raw`. */
  function Broadcast(sub: Subsystems, e: Error): (r: Subsystems)
    ensures NotifiedOnce(sub, r, e)
    ensures Datagrams.Errored(r.datagrams)
  {
    Subsystems(
      Datagrams.OnConnError(sub.datagrams, e),
      sub.flowCtrl + [e], sub.streams + [e], sub.params + [e],
      true, sub.wakeups + 1)
  }

  /** `Router::remove` applied to each of `cids` in order. */
  function RemoveEach(router: seq<Cid>, cids: seq<Cid>): (r: seq<Cid>)
    ensures r == router + cids
    ensures forall c :: multiset(r)[c] == multiset(router)[c] + multiset(cids)[c]
    decreases |cids|
  {
    if |cids| == 0 then router
    else
      var r := RemoveEach(router + [cids[0]], cids[1..]);
      assert (router + [cids[0]]) + cids[1..] == router + cids;
      r
  }

  /** `should_enter_close`: from `Raw`, notify the subsystems and move to
      `Draining` when neither the handshake nor the 1-RTT space can be
      salvaged, to `Closing` (keeping the salvaged spaces) otherwise. Hands
      back the receive-task handles and the largest PTO. Elsewhere a no-op. */
  function ShouldEnterClose(s: ConnState, env: Env, error: Error): (r: Transit<(RecvHandles, nat)>)
    requires s.Raw? ==> |s.raw.ptos| > 0
    ensures !s.Raw? ==> r == Transit(s, env, None)
    ensures s.Raw? ==>
      && (r.next.Closing? || r.next.Draining?)
      && (r.next.Draining? <==> s.raw.hs.None? && s.raw.data.None?)
      && HeldCids(r.next) == s.raw.localCids
      && StoredError(r.next) == Some(error)
      && (r.next.Closing? ==> r.next.closing.hs == s.raw.hs && r.next.closing.oneRtt == s.raw.data)
      && r.env.router == env.router
      && NotifiedOnce(env.shared, r.env.shared, error)
      && r.output.Some?
      && r.output.value.0 == s.raw.joinHandles
      && IsMax(r.output.value.1, s.raw.ptos)
  {
    match s
    case Raw(raw) =>
      var shared := Broadcast(env.shared, error);
      var pto := MaxPto(raw.ptos);
      var next :=
        if raw.hs.None? && raw.data.None? then Draining(DrainingConnection(raw.localCids, error))
        else Closing(ClosingConnection(error, raw.localCids, raw.hs, raw.data));
      Transit(next, env.(shared := shared), Some((raw.joinHandles, pto)))
    case _ => Transit(s, env, None)
  }

  /** `enter_draining`: from `Raw`, notify the subsystems and move straight to
      `Draining`, handing back the largest PTO. Elsewhere a no-op. */
  function EnterDraining(s: ConnState, env: Env, error: Error): (r: Transit<nat>)
    requires s.Raw? ==> |s.raw.ptos| > 0
    ensures !s.Raw? ==> r == Transit(s, env, None)
    ensures s.Raw? ==>
      && r.next.Draining?
      && r.next.draining == DrainingConnection(s.raw.localCids, error)
      && r.env.router == env.router
      && NotifiedOnce(env.shared, r.env.shared, error)
      && r.output.Some? && IsMax(r.output.value, s.raw.ptos)
  {
    match s
    case Raw(raw) =>
      var shared := Broadcast(env.shared, error);
      Transit(Draining(DrainingConnection(raw.localCids, error)), env.(shared := shared), Some(MaxPto(raw.ptos)))
    case _ => Transit(s, env, None)
  }

  /** `no_vaiable_path` (the name is spelled as in the source): always ends
      in `Closed`. From `Raw` it notifies the subsystems and removes every
      active local ID from the router; from any other state it drops that
      state without releasing what it held. */
  function NoVaiablePath(s: ConnState, env: Env): (r: Transit<()>)
    ensures r.next == Closed && r.output.None?
    ensures s.Raw? ==>
      && r.env.router == env.router + s.raw.localCids
      && NotifiedOnce(env.shared, r.env.shared, NoViablePathError())
    ensures !s.Raw? ==> r.env == env
  {
    match s
    case Raw(raw) =>
      var shared := Broadcast(env.shared, NoViablePathError());
      Transit(Closed, Env(shared, RemoveEach(env.router, raw.localCids)), None)
    case _ => Transit(Closed, env, None)
  }

  /** `die`: from `Closing` or `Draining`, remove every held ID from the router
      and end in `Closed`. The other states are unreachable there. */
  function Die(s: ConnState, env: Env): (r: Transit<()>)
    requires s.Closing? || s.Draining?
    ensures r.next == Closed && r.output.None?
    ensures r.env.shared == env.shared
    ensures r.env.router == env.router + HeldCids(s)
    ensures forall c :: c in HeldCids(s) ==> multiset(r.env.router)[c] == multiset(env.router)[c] + multiset(HeldCids(s))[c]
  {
    var cids := if s.Closing? then s.closing.localCids else s.draining.localCids;
    Transit(Closed, env.(router := RemoveEach(env.router, cids)), None)
  }

  /** The transitions, as one type so they can be reasoned about together. */
  datatype Transition = EnterClose(error: Error) | Drain(error: Error) | LosePaths | Terminate

  predicate Enabled(s: ConnState, t: Transition) {
    match t
    case Terminate => s.Closing? || s.Draining?
    case _ => s.Raw? ==> |s.raw.ptos| > 0
  }

  function Fire(s: ConnState, env: Env, t: Transition): (r: (ConnState, Env))
    requires Enabled(s, t)
  {
    match t
    case EnterClose(e) => var st := ShouldEnterClose(s, env, e); (st.next, st.env)
    case Drain(e) => var st := EnterDraining(s, env, e); (st.next, st.env)
    case LosePaths => var st := NoVaiablePath(s, env); (st.next, st.env)
    case Terminate => var st := Die(s, env); (st.next, st.env)
  }

  function FireAll(s: ConnState, env: Env, ts: seq<Transition>): (r: (ConnState, Env))
    decreases |ts|
  {
    if |ts| == 0 || !Enabled(s, ts[0]) then (s, env)
    else
      var (s', env') := Fire(s, env, ts[0]);
      FireAll(s', env', ts[1..])
  }

  /** No `no_vaiable_path` among `ts`. */
  predicate KeepsPaths(ts: seq<Transition>) {
    forall i :: 0 <= i < |ts| ==> !ts[i].LosePaths?
  }

  /** Transitions are monotonic: every sequence of enabled transitions keeps
      or raises the rank, leaves `Raw` for good once it is left, and only ever
      appends to the router log. It appends nothing until the state is
      `Closed`, and then either nothing at all or the IDs the starting state
      held, once. Appending nothing on the way to `Closed` needs a
      `no_vaiable_path` that found a closing or draining state: without one,
      reaching `Closed` releases every held ID. */
  lemma {:induction false} TransitionsAreMonotonic(s: ConnState, env: Env, ts: seq<Transition>)
    ensures var (s', env') := FireAll(s, env, ts);
      && Rank(s') >= Rank(s)
      && (s'.Raw? ==> s' == s)
      && env.router <= env'.router
      && (s'.Closed? || env'.router == env.router)
      && (env'.router == env.router || env'.router == env.router + HeldCids(s))
      && (KeepsPaths(ts) && !s.Closed? && s'.Closed? ==> env'.router == env.router + HeldCids(s))
    decreases |ts|
  {
    if |ts| > 0 && Enabled(s, ts[0]) {
      var (s1, env1) := Fire(s, env, ts[0]);
      if KeepsPaths(ts) {
        assert forall i :: 0 <= i < |ts[1..]| ==> ts[1..][i] == ts[i + 1];
        assert KeepsPaths(ts[1..]);
      }
      TransitionsAreMonotonic(s1, env1, ts[1..]);
      var (s', env') := FireAll(s1, env1, ts[1..]);
      assert FireAll(s, env, ts) == (s', env');
      assert Rank(s1) >= Rank(s) && (s1.Raw? ==> s1 == s);
      assert env.router <= env1.router;
      assert s1.Closed? || env1.router == env.router;
      assert env1.router == env.router || env1.router == env.router + HeldCids(s);
      assert s1.Closed? || HeldCids(s1) == HeldCids(s);
      if s1.Closed? {
        ClosedIsAbsorbing(env1, ts[1..]);
      }
    }
  }

  /** `Closed` is final: the only transitions enabled there leave it as it is
      and release nothing. */
  lemma {:induction false} ClosedIsAbsorbing(env: Env, ts: seq<Transition>)
    ensures FireAll(Closed, env, ts) == (Closed, env)
    decreases |ts|
  {
    if |ts| > 0 && Enabled(Closed, ts[0]) {
      assert Fire(Closed, env, ts[0]) == (Closed, env);
      ClosedIsAbsorbing(env, ts[1..]);
    }
  }
}

=== FILE: flow.dfy ===
/** The datagram flow of a connection (`qunreliable/src/flow.rs`): one shared
    reader half and one shared writer half, each holding either its live
    state or the connection error that ended it.

    The internals of `DatagramReader` and `DatagramWriter` live in files that
    are not part of this model. Each half is kept down to what the flow
    relies on: a size ceiling and a queue of payloads. */
module Datagrams {
  import opened QBase

  type Payload = seq<bv8>

  /** Live state of the reader: the size ceiling it was built with and the
      received payloads waiting for the application. */
  datatype RawReader = RawReader(maxSize: nat, queue: seq<Payload>)

  /** Live state of the writer: the size ceiling it was built with (raised by
      transport-parameter updates) and the payloads waiting to be sent. */
  datatype RawWriter = RawWriter(maxSize: nat, queue: seq<Payload>)

  /** The `Result<Raw…, Error>` held behind each half's mutex. */
  datatype Half<T> = Live(raw: T) | Failed(error: Error)

  /** A flow. `id` stands for the identity of the shared allocation: every
      handle that `Rw` returns names it, and no operation changes it. */
  datatype DatagramFlow = DatagramFlow(id: nat, reader: Half<RawReader>, writer: Half<RawWriter>)

  /** Application handles onto the halves of the flow they name. */
  datatype DatagramReader = DatagramReader(flow: nat)
  datatype DatagramWriter = DatagramWriter(flow: nat)

  /** A DATAGRAM frame taken from the writer; only its payload length is kept. */
  datatype DatagramFrame = DatagramFrame(len: nat)

  /** The flow after an operation, together with what the operation returned. */
  datatype Reply<T> = Reply(flow: DatagramFlow, result: T)

  /** Placeholder reasons: the exact texts live in the reader and writer
      sources, which are not part of this model. */
  const ShrinkReason: string := "max_datagram_frame_size must not decrease"
  const TooLargeReason: string := "datagram frame exceeds max_datagram_frame_size"

  /** Both halves still hold their live state. */
  predicate Healthy(f: DatagramFlow) {
    f.reader.Live? && f.writer.Live?
  }

  /** Both halves have been ended by a connection error. */
  predicate Errored(f: DatagramFlow) {
    f.reader.Failed? && f.writer.Failed?
  }

  /** `RawDatagramFlow::new` behind `DatagramFlow::new`. As written, the reader
      is built from the remote size and the writer from the local size. */
  function New(id: nat, localMaxSize: nat, remoteMaxSize: nat): (f: DatagramFlow)
    ensures f.id == id && Healthy(f)
    ensures f.reader.raw.maxSize == remoteMaxSize && f.reader.raw.queue == []
    ensures f.writer.raw.maxSize == localMaxSize && f.writer.raw.queue == []
  {
    DatagramFlow(id, Live(RawReader(remoteMaxSize, [])), Live(RawWriter(localMaxSize, [])))
  }

  /** `update_remote_max_datagram_frame_size`: forwarded to the writer, which
      refuses a ceiling below its current one. The reader is never touched. */
  function UpdateRemoteMaxSize(f: DatagramFlow, newSize: nat): (r: Reply<Result<()>>)
    ensures r.flow.id == f.id && r.flow.reader == f.reader
    ensures f.writer.Failed? ==> r.result == Err(f.writer.error) && r.flow == f
    ensures f.writer.Live? && newSize < f.writer.raw.maxSize ==>
      r.result.Err? && r.result.error.kind == ProtocolViolation && r.flow == f
    ensures f.writer.Live? && newSize >= f.writer.raw.maxSize ==>
      r.result.Ok? && r.flow.writer == Live(f.writer.raw.(maxSize := newSize))
    ensures r.result.Ok? <==> f.writer.Live? && f.writer.raw.maxSize <= newSize
  {
    match f.writer
    case Failed(e) => Reply(f, Err(e))
    case Live(w) =>
      if newSize < w.maxSize then Reply(f, Err(Error(ProtocolViolation, ShrinkReason)))
      else Reply(f.(writer := Live(w.(maxSize := newSize))), Ok(()))
  }

  /** The head payload of the writer fits the transport's `limit`, the
      caller's buffer and the writer's ceiling. */
  predicate HeadFits(w: RawWriter, limit: nat, bufLen: nat)
    requires |w.queue| > 0
  {
    |w.queue[0]| <= limit && |w.queue[0]| <= bufLen && |w.queue[0]| <= w.maxSize
  }

  /** `try_read_datagram`: takes one pending outbound datagram off the writer
      when it fits, otherwise returns nothing. Only the writer is touched. */
  function TryReadDatagram(f: DatagramFlow, limit: nat, bufLen: nat): (r: Reply<Option<(DatagramFrame, nat)>>)
    ensures r.flow.id == f.id && r.flow.reader == f.reader
    ensures r.result.None? ==> r.flow == f
    ensures f.writer.Failed? ==> r.result.None?
    ensures r.result.Some? ==>
      && f.writer.Live? && |f.writer.raw.queue| > 0
      && var n := r.result.value.1;
      && n == |f.writer.raw.queue[0]| == r.result.value.0.len
      && n <= limit && n <= bufLen && n <= f.writer.raw.maxSize
      && r.flow.writer == Live(f.writer.raw.(queue := f.writer.raw.queue[1..]))
    ensures f.writer.Live? && |f.writer.raw.queue| > 0 && HeadFits(f.writer.raw, limit, bufLen) ==>
      r.result.Some?
  {
    match f.writer
    case Failed(_) => Reply(f, None)
    case Live(w) =>
      if |w.queue| > 0 && HeadFits(w, limit, bufLen) then
        var n := |w.queue[0]|;
        Reply(f.(writer := Live(w.(queue := w.queue[1..]))), Some((DatagramFrame(n), n)))
      else Reply(f, None)
  }

  /** `recv_datagram`: hands one received payload to the reader, which refuses
      one above its ceiling. Only the reader is touched. */
  function RecvDatagram(f: DatagramFlow, body: Payload): (r: Reply<Result<()>>)
    ensures r.flow.id == f.id && r.flow.writer == f.writer
    ensures f.reader.Failed? ==> r.result == Err(f.reader.error) && r.flow == f
    ensures f.reader.Live? && |body| > f.reader.raw.maxSize ==>
      r.result.Err? && r.result.error.kind == ProtocolViolation && r.flow == f
    ensures r.result.Ok? <==> f.reader.Live? && |body| <= f.reader.raw.maxSize
    ensures r.result.Ok? ==> r.flow.reader == Live(f.reader.raw.(queue := f.reader.raw.queue + [body]))
  {
    match f.reader
    case Failed(e) => Reply(f, Err(e))
    case Live(rd) =>
      if |body| > rd.maxSize then Reply(f, Err(Error(ProtocolViolation, TooLargeReason)))
      else Reply(f.(reader := Live(rd.(queue := rd.queue + [body]))), Ok(()))
  }

  /** `rw`: a reader and a writer handle onto this flow's own halves. */
  function Rw(f: DatagramFlow): (r: (DatagramReader, DatagramWriter))
    ensures r.0.flow == f.id && r.1.flow == f.id
  {
    (DatagramReader(f.id), DatagramWriter(f.id))
  }

  /** What an application handle sees: the current half of the flow it names. */
  function ReaderView(f: DatagramFlow, h: DatagramReader): Half<RawReader>
    requires h.flow == f.id
  {
    f.reader
  }

  function WriterView(f: DatagramFlow, h: DatagramWriter): Half<RawWriter>
    requires h.flow == f.id
  {
    f.writer
  }

  /** One half on a connection error: a live half fails with `e`, a failed
      half keeps the error it already has. */
  function Fail<T>(h: Half<T>, e: Error): (r: Half<T>)
    ensures r.Failed?
    ensures h.Failed? ==> r == h
    ensures h.Live? ==> r.error == e
  {
    if h.Live? then Failed(e) else h
  }

  /** `on_conn_error`: both halves end; the first error each half sees wins. */
  function OnConnError(f: DatagramFlow, e: Error): (r: DatagramFlow)
    ensures r.id == f.id && Errored(r)
    ensures r.reader == Fail(f.reader, e) && r.writer == Fail(f.writer, e)
    ensures Healthy(f) ==> r.reader.error == e && r.writer.error == e
    ensures Errored(f) ==> r == f
  {
    f.(reader := Fail(f.reader, e), writer := Fail(f.writer, e))
  }

  /** The ways the connection drives a flow. */
  datatype Op =
    | UpdateRemote(newSize: nat)
    | TryRead(limit: nat, bufLen: nat)
    | Recv(body: Payload)
    | ConnError(error: Error)

  function Apply(f: DatagramFlow, op: Op): DatagramFlow {
    match op
    case UpdateRemote(n) => UpdateRemoteMaxSize(f, n).flow
    case TryRead(limit, bufLen) => TryReadDatagram(f, limit, bufLen).flow
    case Recv(body) => RecvDatagram(f, body).flow
    case ConnError(e) => OnConnError(f, e)
  }

  function ApplyAll(f: DatagramFlow, ops: seq<Op>): DatagramFlow
    decreases |ops|
  {
    if |ops| == 0 then f else ApplyAll(Apply(f, ops[0]), ops[1..])
  }

  /** The largest of `m` and every element of `xs`. */
  function MaxOf(m: nat, xs: seq<nat>): nat
    decreases |xs|
  {
    if |xs| == 0 then m else MaxOf(if xs[0] > m then xs[0] else m, xs[1..])
  }

  function UpdateAll(f: DatagramFlow, sizes: seq<nat>): DatagramFlow
    decreases |sizes|
  {
    if |sizes| == 0 then f else UpdateAll(UpdateRemoteMaxSize(f, sizes[0]).flow, sizes[1..])
  }

  /** The remote size never shrinks: whatever sequence of updates arrives, the
      writer ends with the largest ceiling it has seen, and the reader is
      untouched. */
  lemma {:induction false} UpdatesKeepLargestSize(f: DatagramFlow, sizes: seq<nat>)
    requires f.writer.Live?
    ensures UpdateAll(f, sizes).writer.Live?
    ensures UpdateAll(f, sizes).writer.raw.maxSize == MaxOf(f.writer.raw.maxSize, sizes)
    ensures UpdateAll(f, sizes).writer.raw.maxSize >= f.writer.raw.maxSize
    ensures UpdateAll(f, sizes).reader == f.reader
    decreases |sizes|
  {
    if |sizes| > 0 {
      var g := UpdateRemoteMaxSize(f, sizes[0]).flow;
      UpdatesKeepLargestSize(g, sizes[1..]);
    }
  }

  /** Because of the wiring in `New`, the first remote update is checked
      against the LOCAL size the flow was built with. */
  lemma FirstUpdateCheckedAgainstLocalSize(id: nat, local: nat, remote: nat, n: nat)
    ensures UpdateRemoteMaxSize(New(id, local, remote), n).result.Ok? <==> n >= local
  {
  }

  /** No operation changes which allocation the flow is. */
  lemma {:induction false} ApplyAllKeepsIdentity(f: DatagramFlow, ops: seq<Op>)
    ensures ApplyAll(f, ops).id == f.id
    decreases |ops|
  {
    if |ops| > 0 {
      ApplyAllKeepsIdentity(Apply(f, ops[0]), ops[1..]);
    }
  }

  /** Handles share the flow's state: after any later operations and a
      connection error, every handle returned by an earlier `Rw` observes
      failed halves. */
  lemma ErrorSeenThroughEarlierHandles(f: DatagramFlow, ops: seq<Op>, e: Error)
    ensures var h := Rw(f);
      var g := OnConnError(ApplyAll(f, ops), e);
      h.0.flow == g.id && h.1.flow == g.id
      && ReaderView(g, h.0).Failed? && WriterView(g, h.1).Failed?
  {
    ApplyAllKeepsIdentity(f, ops);
  }

  /** A second connection error changes nothing: the first one wins. */
  lemma OnConnErrorFirstErrorWins(f: DatagramFlow, e1: Error, e2: Error)
    ensures OnConnError(OnConnError(f, e1), e2) == OnConnError(f, e1)
  {
  }

  /** Once errored, the flow is absorbing: no operation moves it back to
      live or replaces its errors. */
  lemma {:induction false} ErroredFlowStaysErrored(f: DatagramFlow, ops: seq<Op>)
    requires Errored(f)
    ensures ApplyAll(f, ops) == f
    decreases |ops|
  {
    if |ops| > 0 {
      assert Apply(f, ops[0]) == f;
      ErroredFlowStaysErrored(f, ops[1..]);
    }
  }

  /** After the connection error, every read and write fails with it. */
  lemma ErroredFlowRejects(f: DatagramFlow, e: Error, n: nat, limit: nat, bufLen: nat, body: Payload)
    requires Healthy(f)
    ensures var g := OnConnError(f, e);
      && UpdateRemoteMaxSize(g, n).result == Err(e)
      && RecvDatagram(g, body).result == Err(e)
      && TryReadDatagram(g, limit, bufLen).result.None?
  {
  }

  /** Reading outbound datagrams and receiving inbound ones act on different
      halves, so they commute. */
  lemma ReadAndRecvCommute(f: DatagramFlow, limit: nat, bufLen: nat, body: Payload)
    ensures RecvDatagram(TryReadDatagram(f, limit, bufLen).flow, body).flow
         == TryReadDatagram(RecvDatagram(f, body).flow, limit, bufLen).flow
  {
  }
}

=== FILE: qbase.dfy ===
/** Shared vocabulary of the QUIC crates: optional values, fallible results,
    the connection error value and connection IDs. */
module QBase {

  /** A value that may be absent: a missing space key, a signal not yet
      raised, a transition that handed nothing back. */
  datatype Option<+T> = None | Some(value: T)

  /** A fallible result whose failure is a connection error. */
  datatype Result<+T> = Ok(value: T) | Err(error: Error)

  /** The kinds of `qbase::error::Error` this core constructs or inspects.
      Every other kind is folded into `Other`. */
  datatype ErrorKind = Application | NoViablePath | ProtocolViolation | Other(code: nat)

  /** A connection error: immutable once built and freely cloned. The frame
      type that `Error::with_default_fty` attaches is not modelled. */
  datatype Error = Error(kind: ErrorKind, reason: string)

  /** An opaque locally issued connection ID, as registered in the router. */
  type Cid = nat

  /** Each element of `s` occurs in it exactly once. */
  predicate Distinct<T(==)>(s: seq<T>) {
    forall i, j :: 0 <= i < j < |s| ==> s[i] != s[j]
  }

  /** A sequence without repetitions holds every element exactly once, as
      a multiset. */
  lemma {:induction false} DistinctCountsOnce<T>(s: seq<T>)
    requires Distinct(s)
    ensures forall x :: x in s ==> multiset(s)[x] == 1
  {
    if |s| > 0 {
      DistinctCountsOnce(s[1..]);
      assert s == [s[0]] + s[1..];
      assert s[0] !in s[1..] by {
        forall k | 0 <= k < |s[1..]| ensures s[1..][k] != s[0] {
          assert s[1..][k] == s[k + 1];
        }
      }
      forall x | x in s ensures multiset(s)[x] == 1 {
        assert multiset(s) == multiset([s[0]]) + multiset(s[1..]);
        if x != s[0] {
          assert x in s[1..];
        }
      }
    }
  }
}
